=== FILE: README.md ===
# chatgpt-worker core, modelled in Dafny

The system runs one chat website inside a worker thread. A supervisor proxy
sends commands to the worker and fans the worker's messages out to
subscribers. This project models the sequential logic around the browser
glue. It has four pieces and one optional part:

- **The message envelope** (`WorkerMessages`). `WorkerMessage.build` fills in
  defaults according to JavaScript truthiness. JavaScript values are modelled
  in `JsValues`.
- **Reply events** (`AIChatMessages`). These are the `AIChatStatus` enum and
  the `start`/`replying`/`end` factories. An event holds a status, the
  appended slice (`apd`) and the full content. It has no html field.
- **The supervisor's handler registry** (`WorkerProxy`). It is a map from the
  five channel names to ordered handler lists. The model covers `on`, both
  forms of `off`, the routing of worker events onto channels, and the
  `question`/`refresh`/`exit` command messages. Calling a handler is recorded
  as an `Invocation`.
- **The worker lifecycle** (`Core`). This is the retry counter, the three steps
  of `main`, `retry`, `run`, and the constructor's command dispatch. Each call
  of `main` has browser outcomes, which are given as inputs
  (`outcomes: nat -> Attempt`). What the worker does is recorded as a trace of
  `Effects.Effect` values.
- **The Cutterman session** (`ChatCutterman`). This is the `lastDivLength`
  start-detection counter, `reset`/`beforeReload`, and the cookie clearing in
  `beforeRetry`. The polling tick survives in the source only as commented-out
  code (`startListenResult`). It is modelled as the `Legacy*` members, which
  serve as a reference definition of the diff rule. The full-turn lemma
  `LegacyTurn` is stated about that reference.

The `WorkerMessage` constructor stores its arguments unchanged. In the model
it is exactly the datatype constructor `WorkerMessages.Message`.

Notes on the code as written:

- Reply events have no html field. The commented-out tick calls
  `end(text, html)`, but `end` takes one argument, so the html is dropped.
- Within `run`, a missing configuration file exits with code 1, and an
  exhausted retry budget also exits with code 1. The two codes are not
  distinct. This is about `run` alone. In the shipped program, the thread
  entry (src/threads/workerThreads.ts:16) and the supervisor
  (src/helpers/WorkerProxy.ts:32) check the same file first. Their failure
  paths only log (src/threads/workerThreads.ts:34-36 and
  src/helpers/WorkerProxy.ts:44-47). `run`'s own exit is reached only if the
  file disappears after those checks.
- `retry` calls `main` outside any `try`. A failure of the retried `main`
  therefore escapes `run`, so `main` runs at most twice per `run`, whatever
  the budget is (see Findings).
- `report` and `reportError` post a JSON *string*, not a message object.
  Such a string has no `type`, so it is routed to the `message` channel. The
  supervisor's default logger checks `e.type === Report`, so it never prints
  one of these strings.
- The message-type enum has no `Chat` or `Reply` member. The Cutterman
  `receiveMessage` switches on `Chat`, which is never matched, so dispatch
  ends in the subclass hook (`Receive`).

## Model

| member | source | states |
|---|---|---|
| JsValues.TruthyIffNotFalsy | src/models/WorkerMessage.ts:21-24 | the truthiness the `if` tests use holds exactly for the values outside the language's list of falsy values |
| WorkerMessages.Build | src/models/WorkerMessage.ts:17-28 | the type is kept; truthy data is kept, otherwise data is null; the message is kept if data or message is truthy, otherwise it is `'none'` |
| WorkerMessages.BuildNormalForm | src/models/WorkerMessage.ts:20-28 | every result is normal (truthy data, or null data with a truthy message); rebuilding a result gives it back; every normal message is a result of `build` |
| WorkerMessages.BuildDropsFalsyArguments | src/models/WorkerMessage.ts:21-27 | for every message and every present-but-falsy data (`''`, `0`, `false`, `NaN`, null, undefined), data becomes null and the message is kept iff it is truthy, else it becomes `'none'`; with truthy data, any message (falsy ones included) and the data are kept unchanged |
| AIChatMessages.StatusesOrdered | src/models/AIChatMessage.ts:1-14 | the three statuses have distinct enum values, ordered Start < Replying < End |
| AIChatMessages.StartOf | src/models/AIChatMessage.ts:33-35 | `start(content)` is a Start event whose apd and content are both the given text |
| AIChatMessages.ReplyingOf | src/models/AIChatMessage.ts:37-39 | `replying(apd, content)` is a Replying event carrying exactly the given slice and full text |
| AIChatMessages.EndOf | src/models/AIChatMessage.ts:41-43 | `end(content)` is an End event with an empty apd and the given text |
| AIChatMessages.FactoriesAreWellFormed | src/models/AIChatMessage.ts:27-43 | start gives apd = content, end gives an empty apd; an event is well formed iff rebuilding it with the factory for its status gives it back |
| WorkerProxy.Init | src/helpers/WorkerProxy.ts:26-31 | after construction all five channels exist and are empty |
| WorkerProxy.On | src/helpers/WorkerProxy.ts:86-88 | the handler is appended at the end of its channel, and every other channel is unchanged |
| WorkerProxy.OnAllAppends | src/helpers/WorkerProxy.ts:86-88 | successive `on` calls append in call order and leave the other channels alone |
| WorkerProxy.FindIndex | src/helpers/WorkerProxy.ts:94 | the result is -1 iff the handler is absent, and otherwise the index of its first occurrence |
| WorkerProxy.Splice | src/helpers/WorkerProxy.ts:95-98 | a negative start counts from the end and is clamped; the delete count is clamped; the elements before the start and after the removed run keep their order |
| WorkerProxy.Off | src/helpers/WorkerProxy.ts:90-99 | only the named channel changes; it loses one handler (if it had any) when a handler is given, and all of them otherwise |
| WorkerProxy.OffRegistered | src/helpers/WorkerProxy.ts:93-96 | removing a registered handler deletes exactly its first occurrence; the order of the rest is kept, and the multiset loses one copy of it |
| WorkerProxy.OffUnregisteredDropsLast | src/helpers/WorkerProxy.ts:94-95 | removing an unregistered handler deletes the channel's last handler, because `splice(-1, 1)` follows the -1 from `findIndex` |
| WorkerProxy.OffClears | src/helpers/WorkerProxy.ts:98 | clearing empties the channel, and clearing twice is the same as clearing once |
| WorkerProxy.ChannelOf | src/helpers/WorkerProxy.ts:50-71 | a posted payload goes to `ready` iff it is a message object of type Ready, and to `message` otherwise; error, exit and online each go to their own channel |
| WorkerProxy.Invocations | src/helpers/WorkerProxy.ts:53-55 | there is one call per handler, with the same event, in list order |
| WorkerProxy.Deliver | src/helpers/WorkerProxy.ts:51-71 | a worker event calls every handler of the channel it is routed to, once each, in list order, all with that same event (for `online`, the recorded event stands for a call with no argument) |
| WorkerProxy.RoutingOfPostedPayloads | src/helpers/WorkerProxy.ts:51-56 | a Ready message reaches exactly the ready handlers; any other payload, including a serialized report, reaches exactly the message handlers |
| WorkerProxy.DeliverAfterOn | src/helpers/WorkerProxy.ts:86-88 | a handler registered on the event's channel is called after all earlier ones; registering on another channel changes nothing |
| WorkerProxy.DispatchInRegistrationOrder | src/helpers/WorkerProxy.ts:51-56 | starting from a fresh registry, handlers are invoked in the order they were registered |
| WorkerProxy.AttachDefaults | src/helpers/WorkerProxy.ts:72-83 | `initWorkerEvent` appends its loggers to `message`, `error` and `exit` after any handlers registered earlier; `online` and `ready` are untouched |
| WorkerProxy.SerializedReportsAreNotLogged | src/helpers/WorkerProxy.ts:72-76 | the default logger prints the message of a Report object, but never a report posted as a JSON string |
| WorkerProxy.QuestionMessage | src/helpers/WorkerProxy.ts:101-103 | `question(t)` posts (Question, `'question'`, t), with null instead of t when t is empty |
| WorkerProxy.RefreshMessage | src/helpers/WorkerProxy.ts:106-108 | `refresh()` posts (Refresh, `'none'`, null) |
| WorkerProxy.ExitMessage | src/helpers/WorkerProxy.ts:110-112 | `exit()` posts (Exit, `'none'`, null) |
| ChatCutterman.ChatLogic | src/helpers/ChatCuttermanWorker.ts:73-74 | after sending, the recorded div count is the count observed right after the click, and nothing else changes |
| ChatCutterman.IsStartReply | src/helpers/ChatCuttermanWorker.ts:93-96 | a reply has started iff the page shows more divs than the recorded count (so at least one div) |
| ChatCutterman.StartDetection | src/helpers/ChatCuttermanWorker.ts:93-96 | a reply has started iff more divs are shown than the count recorded after sending; after a reset any div counts; reset is idempotent |
| ChatCutterman.Reset | src/helpers/ChatCuttermanWorker.ts:130-137 | the recorded div count becomes 0, and the cookie state is unchanged |
| ChatCutterman.BeforeReload | src/helpers/ChatCuttermanWorker.ts:39-41 | `beforeReload` is exactly `reset` |
| ChatCutterman.BeforeRetry | src/helpers/ChatCuttermanWorker.ts:29-37 | the file is deleted iff it exists and can be deleted; otherwise (missing file, or a delete that throws) the skip is reported and the session is unchanged; it never fails |
| ChatCutterman.BeforeRetryTwice | src/helpers/ChatCuttermanWorker.ts:29-37 | clearing twice leaves the same state as clearing once, and the second call only reports the skip |
| ChatCutterman.SliceFrom | src/helpers/ChatCuttermanWorker.ts:112 | `slice(k)` is the suffix from k, or empty when k is beyond the end |
| ChatCutterman.LegacyReset | src/helpers/ChatCuttermanWorker.ts:130-135 | the commented-out reset clears the text, forgets the div count and stops the timer |
| ChatCutterman.LegacyStart | src/helpers/ChatCuttermanWorker.ts:98-99 | starting the timer changes nothing but the running flag |
| ChatCutterman.LegacyTick | src/helpers/ChatCuttermanWorker.ts:98-128 | commented-out tick: nothing happens unless the timer runs and the div count exceeds the recorded one; the event carries the full text; End iff the send button is back (then the watcher resets); Start iff not over and the last text was empty; a Replying event's apd is the text from the last text's length on, so for a prefix-extension, last text + apd = text |
| ChatCutterman.LegacyRun | src/helpers/ChatCuttermanWorker.ts:99-127 | the interval's repeated ticks: every event is well formed, only the last event can be End, there is at most one event per sample, and a stopped watcher emits nothing |
| ChatCutterman.StoppedWatcherIsSilent | src/helpers/ChatCuttermanWorker.ts:130-134 | once the timer is cleared, further ticks emit nothing |
| ChatCutterman.LegacyTurnContinues | src/helpers/ChatCuttermanWorker.ts:110-126 | commented-out tick, mid-turn: each tick before the last emits Replying, and the last emits End with the final text; the slices extend the seen text to the last text before the end |
| ChatCutterman.LegacyTurn | src/helpers/ChatCuttermanWorker.ts:98-128 | commented-out tick, whole turn of at least two prefix-extending samples whose first sample has text: exactly one Start, then Replying events, then exactly one End with the final text; the slices concatenate to the text of the last sample before the end; the watcher ends cleared |
| ChatCutterman.LegacyTurnAfterEmptySamples | src/helpers/ChatCuttermanWorker.ts:98-128 | a turn that begins with k samples of empty text emits k empty Starts, then the Start of the first text, Replying events and one End: k + 1 Starts in all; the watcher ends cleared |
| ChatCutterman.LegacyEndAfterEmptySamples | src/helpers/ChatCuttermanWorker.ts:98-128 | a turn whose text first appears in the sample that shows the send button emits one empty Start per earlier sample, then End with that text, and no Start carrying the text; the watcher ends cleared |
| ChatCutterman.LegacyImmediateEnd | src/helpers/ChatCuttermanWorker.ts:115-123 | a turn whose first counted sample already shows the send button emits End with that text and no Start |
| ChatCutterman.LegacyReloadIsolatesTurns | src/helpers/ChatCuttermanWorker.ts:39-41 | a reload mid-turn emits no End, and the next turn's first event with text is a Start |
| ChatCutterman.LegacyExample | src/helpers/ChatCuttermanWorker.ts:110-126 | samples "", "Hel", "Hello", "Hello world", then "Hello world" with the reply over, give Start(""), Start("Hel"), Replying("lo"), Replying(" world"), End("Hello world") |
| Core.Fresh | src/core.ts:22 | the retry counter starts at 0 |
| Core.ReadyMessage | src/core.ts:114-116 | `ready` posts (Ready, `'none'`, null) |
| Core.Main | src/core.ts:69-73 | `main` runs init, signIn and ready in that order; a failing step skips the later ones; Ready is posted iff all three complete; the counter is unchanged |
| Core.RetryPrelude | src/core.ts:82-87 | a granted retry reports first, adds exactly 1 to the counter, runs `beforeRetry` (the cookies file survives only if it cannot be deleted), and closes the browser iff one was launched |
| Core.Retry | src/core.ts:75-89 | with counter >= retryCount it reports an error and exits with code 1, without counting or calling `main`; otherwise it counts one retry and calls `main` once, and a failure there escapes |
| Core.RetryOrder | src/core.ts:82-88 | with budget left, the report, the cookie clear and the browser close (iff one was launched) all come before `main`, call nothing, and are followed by exactly the trace of `main` on the counted state, whose state is the result |
| Core.Run | src/core.ts:55-64 | a missing config file is reported as an error and exits with code 1 before `main` is called |
| Core.RunCallsMainAtMostTwice | src/core.ts:45-53 | with a config file, `main` executes twice iff the first call fails and a retry is granted, and once otherwise; with no config file it never runs; the counter never decreases and grows by at most 1 |
| Core.NoRetriesLeftExitsAfterOneAttempt | src/core.ts:76-80 | with no retries left (e.g. retryCount 0), the first failure of `main` leads to exit(1) after exactly one attempt |
| Core.ConfigMissingExitsLikeExhaustion | src/core.ts:58-64 | a missing config file and an exhausted retry budget both exit with code 1 |
| Core.ReadyPostedIffIdle | src/core.ts:114-116 | Ready is posted iff `run` resolves normally |
| Core.RetriedFailureEscapes | src/core.ts:88 | when the retried `main` fails, `run` rejects; it neither retries again nor exits, whatever the budget |
| Core.RetryBudgetUnreachableAsWritten | src/core.ts:75-89 | as written, with retryCount 2 and every launch failing, `main` runs twice and the rejection escapes without exit(1) |
| Core.RunIntended | src/core.ts:75-89 | corrected retry loop: `main` runs at most budget + 1 times; it stops at the first success; if it gives up, every call failed and it exits with code 1 after exactly budget + 1 calls |
| Core.HandleMessage | src/core.ts:26-40 | Refresh runs `beforeReload` and reloads; Exit closes the page and exits with code 0; anything else goes to `receiveMessage`; the counter is never touched |
| Core.CommandsKeepRetryCount | src/core.ts:26-40 | any sequence of commands leaves the retry counter unchanged and never re-runs `main` |
| Core.ReloadsThenFailureIsFirstRetry | src/core.ts:28-31 | any number of reloads followed by one genuine failure is still counted as the first retry |
| Core.ExitIsFinal | src/core.ts:32-35 | commands stop at the first Exit, and its exit with code 0 is the last effect |

## Findings

| source | as written | input that shows it | evidently intended | confidence | as-written member | corrected member |
|---|---|---|---|---|---|---|
| src/core.ts:88 | `retry` awaits `main()` outside any `try`, so a failure of the retried `main` rejects `run` and is only logged by the thread wrapper | retryCount 2, every browser launch fails: `main` runs twice, the counter stops at 1, and there is no exit(1) | retry until `main` succeeds or the budget is spent, then exit with code 1 | high; not executed | Core.RetryBudgetUnreachableAsWritten | Core.RunIntended |

`Core.Run` models the code as written. `Core.RunIntended` is the corrected
loop. It is proved to run `main` at most budget + 1 times and to exit with
code 1 after exactly that many failures.

## Left out

- Browser driving is not modelled: selectors, clicks, typing, navigation, the
  sign-in scripts, and the body of `init`. Their results are inputs: `Attempt`,
  `Sample`, and the div counts.
- Filesystem access is not modelled: the config import, and reading and
  writing cookies. The cookie file appears only as the `cookiesSaved` flag,
  and whether it can be deleted as the `cookiesLocked` flag.
  The supervisor constructor's config read and thread spawn
  (src/helpers/WorkerProxy.ts:32-47) are also left out.
- Threads are not modelled: the worker-thread transport, the asynchronous
  interleaving of handlers, and the `wait`/timer delays. Handler calls are
  recorded, not run.
- `logStr`, `log` and `report` prefix each text with a wall-clock timestamp
  and a pid. Reports outside `main` are recorded with their fixed text only.
- Inside `main`, the trace marks only the entry into each step
  (`Perform(Init)`, `Perform(SignIn)`, `Perform(ReadyStep)`). The reports
  posted from within `init` (src/core.ts:96, 102, 108), the Cutterman
  `signIn` and the Cutterman `ready` are not recorded.
- `init` sets the page's navigation and default timeouts to 0
  (src/core.ts:105-106). A `goto` or a wait for a selector can then block
  forever. `Attempt` assumes every step either completes or throws.
- Core.Run: the missing-config exit(1) is shadowed by the earlier checks at
  src/threads/workerThreads.ts:16 and src/helpers/WorkerProxy.ts:32. The
  thread entry, the config import and the supervisor's startup are not
  modelled, so the model does not show that exit(1) is unreachable in
  practice.
- ChatCutterman.SliceFrom: indexes by Unicode scalar values (Dafny `char`),
  while JavaScript's `length` and `slice` count UTF-16 code units. The two
  differ for text outside the Basic Multilingual Plane when a sample is not a
  prefix-extension of the last text. This affects `LegacyTick` as well.
- ChatCutterman.LegacyTurn: "exactly one End" assumes ticks never overlap.
  `setInterval` does not await its async callback
  (src/helpers/ChatCuttermanWorker.ts:99-127), and nothing guards against a
  second tick reaching End before `reset` clears the timer.
- The live watcher (`chat`), the base-class `reset`, and the subclasses'
  `receiveMessage` bodies are not part of this model. `Receive(m)` marks the
  hand-off.
- The ChatGPT and FastChat workers are not modelled. The lifecycle uses the
  Cutterman hooks.
- JsValues.Truthy: numbers are integers plus `NaN`. Non-integral floats and
  `-0` are left out (all non-zero floats are truthy anyway), and so are
  BigInt values.
- The Exit and Refresh handlers call `page.close()`/`page.reload()`. If a
  command arrives before `init` has set `page`, these calls fail; that
  failure is not modelled.

=== FILE: ai_chat_message.dfy ===
/** The reply-progress events a worker emits (src/models/AIChatMessage.ts). */
module AIChatMessages {

  /** Numeric enum: `Start` is 0, `Replying` 1, `End` 2. */
  datatype AIChatStatus = Start | Replying | End

  /** An event carries a status, the appended slice and the full content;
      there is no html field. */
  datatype AIChatMessage = AIChatMessage(status: AIChatStatus, apd: string, content: string)

  /** The enum's numeric value. */
  function Ordinal(s: AIChatStatus): (n: nat)
    ensures n < 3
  {
    match s
    case Start => 0
    case Replying => 1
    case End => 2
  }

  /** The three statuses are distinct and ordered Start, Replying, End. */
  lemma StatusesOrdered()
    ensures Ordinal(Start) < Ordinal(Replying) < Ordinal(End)
    ensures forall a: AIChatStatus, b: AIChatStatus :: Ordinal(a) == Ordinal(b) ==> a == b
  {
  }

  /** `AIChatMessage.start(content)`: the whole content is also the slice. */
  function StartOf(content: string): (e: AIChatMessage)
    ensures e.status == Start && e.apd == content && e.content == content
  {
    AIChatMessage(Start, content, content)
  }

  /** `AIChatMessage.replying(apd, content)`. */
  function ReplyingOf(apd: string, content: string): (e: AIChatMessage)
    ensures e.status == Replying && e.apd == apd && e.content == content
  {
    AIChatMessage(Replying, apd, content)
  }

  /** `AIChatMessage.end(content)`: the slice is empty. */
  function EndOf(content: string): (e: AIChatMessage)
    ensures e.status == End && e.apd == "" && e.content == content
  {
    AIChatMessage(End, "", content)
  }

  /** The events the three factories can produce. */
  predicate WellFormed(e: AIChatMessage) {
    (e.status == Start ==> e.apd == e.content) && (e.status == End ==> e.apd == "")
  }

  /** The factory an event's status selects, applied to the event's fields. */
  function Rebuild(e: AIChatMessage): AIChatMessage {
    match e.status
    case Start => StartOf(e.content)
    case Replying => ReplyingOf(e.apd, e.content)
    case End => EndOf(e.content)
  }

  /** The factories produce exactly the well-formed events: each factory's
      result is well formed, and an event is well formed iff rebuilding it
      through its status's factory gives it back. */
  lemma FactoriesAreWellFormed(apd: string, content: string, e: AIChatMessage)
    ensures WellFormed(StartOf(content)) && WellFormed(ReplyingOf(apd, content)) && WellFormed(EndOf(content))
    ensures WellFormed(e) <==> Rebuild(e) == e
  {
  }
}

=== FILE: chat_cutterman_worker.dfy ===
/** The Cutterman session (src/helpers/ChatCuttermanWorker.ts): the
    `lastDivLength` counter that tells when the assistant starts replying, the
    cookie clearing before a retry, and the polling tick that survives in the
    source only as commented-out code (modelled here as the `Legacy*`
    members, a reference definition of the diffing rule). */
module ChatCutterman {

  import opened Wrappers
  import opened Effects
  import opened AIChatMessages

  /** The session-specific state: the number of conversation divs recorded
      after the last send, and whether the cookies file exists on disk.
      `cookiesLocked` is a fact about the filesystem, not a field of the
      worker: the file cannot be deleted (say, its directory is read-only),
      so `unlink` throws even though `access` succeeds. */
  datatype Session = Session(lastDivLength: nat, cookiesSaved: bool, cookiesLocked: bool)

  /** The tail of `chatLogic`: after clicking send, record how many
      conversation divs the page now shows. */
  function ChatLogic(s: Session, divCountAfterSend: nat): (s': Session)
    ensures s'.lastDivLength == divCountAfterSend
    ensures s'.cookiesSaved == s.cookiesSaved && s'.cookiesLocked == s.cookiesLocked
  {
    s.(lastDivLength := divCountAfterSend)
  }

  /** `isStartReply`: the page shows more divs than were recorded. */
  function IsStartReply(s: Session, divCount: nat): (started: bool)
    ensures started ==> divCount >= 1
    ensures started <==> s.lastDivLength < divCount
  {
    divCount > s.lastDivLength
  }

  /** `reset`: forget the recorded div count. The base class's part of
      `reset` is not part of this model. */
  function Reset(s: Session): (s': Session)
    ensures s'.lastDivLength == 0
    ensures s'.cookiesSaved == s.cookiesSaved && s'.cookiesLocked == s.cookiesLocked
  {
    s.(lastDivLength := 0)
  }

  /** `beforeReload` does exactly what `reset` does. */
  function BeforeReload(s: Session): (s': Session)
    ensures s' == Reset(s)
  {
    Reset(s)
  }

  /** The reply has started exactly when a div beyond the ones present right
      after sending appears; after a reset any div at all counts. */
  lemma StartDetection(s: Session, sent: nat, now: nat)
    ensures IsStartReply(ChatLogic(s, sent), now) <==> now > sent
    ensures !IsStartReply(ChatLogic(s, sent), sent)
    ensures IsStartReply(Reset(s), now) <==> now > 0
    ensures Reset(Reset(s)) == Reset(s)
  {
  }

  /** `beforeRetry`: delete the cookies file. The existence check and the
      delete share one `try`, so a missing file and a failed delete both end
      in the same report, and the file stays where it was. It never fails. */
  function BeforeRetry(s: Session): (r: (Session, seq<Effect>))
    ensures r.0.cookiesSaved <==> s.cookiesSaved && s.cookiesLocked
    ensures r.0.lastDivLength == s.lastDivLength && r.0.cookiesLocked == s.cookiesLocked
    ensures r.1 == [] <==> s.cookiesSaved && !s.cookiesLocked
    ensures r.1 != [] ==> r.1 == [Report("skip clear cookies")] && r.0 == s
  {
    if s.cookiesSaved && !s.cookiesLocked then (s.(cookiesSaved := false), [])
    else (s, [Report("skip clear cookies")])
  }

  /** Clearing the cookies twice leaves them as clearing once does; the
      second call only reports the skip. */
  lemma BeforeRetryTwice(s: Session)
    ensures BeforeRetry(BeforeRetry(s).0).0 == BeforeRetry(s).0
    ensures BeforeRetry(BeforeRetry(s).0).1 == [Report("skip clear cookies")]
  {
  }

  // ---------------------------------------------------------------------
  // The commented-out polling tick (`startListenResult`), kept as a
  // reference definition of the diff rule.
  // ---------------------------------------------------------------------

  /** The commented-out watcher's fields: the last text seen, the recorded
      div count, and whether its interval timer is running. Its
      `lastDivLength` is the same source field as `Session.lastDivLength`;
      the watcher carries its own copy so that the reference tick is
      self-contained. */
  datatype Watcher = Watcher(lastText: string, lastDivLength: nat, polling: bool)

  /** What one tick reads from the page: the div count, the reply's text and
      whether the idle send button is present (the reply is over). */
  datatype Sample = Sample(divCount: nat, text: string, sendButton: bool)

  /** `String.prototype.slice(k)` for a non-negative `k`, counting
      characters (see README on UTF-16 code units). */
  function SliceFrom(text: string, k: nat): (r: string)
    ensures k <= |text| ==> r == text[k..]
    ensures |text| < k ==> r == ""
  {
    if k <= |text| then text[k..] else ""
  }

  /** The commented-out `reset`: stop the timer, clear the text, forget the
      div count. */
  function LegacyReset(w: Watcher): (w': Watcher)
    ensures w' == Watcher("", 0, false)
  {
    w.(lastText := "", lastDivLength := 0, polling := false)
  }

  /** Starting the interval timer. */
  function LegacyStart(w: Watcher): (w': Watcher)
    ensures w'.polling && w'.lastText == w.lastText && w'.lastDivLength == w.lastDivLength
  {
    w.(polling := true)
  }

  /** One tick of the commented-out watcher. It does nothing unless its timer
      runs and the page shows more divs than recorded. Otherwise the appended
      slice is the text beyond the last text's length, the reply counts as the
      first one when the last text was empty, and the text is remembered. When
      the reply is over the watcher resets and emits End with the full text;
      otherwise it emits Start (first reply) or Replying. */
  function LegacyTick(w: Watcher, smp: Sample): (r: (Watcher, Option<AIChatMessage>))
    ensures !w.polling || smp.divCount <= w.lastDivLength ==> r == (w, None)
    ensures w.polling && smp.divCount > w.lastDivLength ==>
              && r.1.Some?
              && r.1.value.content == smp.text
              && WellFormed(r.1.value)
              && (r.1.value.status == End <==> smp.sendButton)
              && (r.1.value.status == Start <==> !smp.sendButton && w.lastText == "")
              && (smp.sendButton ==> r.0 == Watcher("", 0, false))
              && (!smp.sendButton ==> r.0 == w.(lastText := smp.text))
              && (r.1.value.status == Replying ==> r.1.value.apd == SliceFrom(smp.text, |w.lastText|))
              && (!smp.sendButton && w.lastText <= smp.text ==> w.lastText + r.1.value.apd == smp.text)
  {
    if !w.polling || smp.divCount <= w.lastDivLength then (w, None)
    else
      var isFirstReply := w.lastText == "";
      var apd := SliceFrom(smp.text, |w.lastText|);
      var w1 := w.(lastText := smp.text);
      if smp.sendButton then
        (LegacyReset(w1), Some(EndOf(smp.text)))
      else if isFirstReply then
        (w1, Some(StartOf(smp.text)))
      else
        (w1, Some(ReplyingOf(apd, smp.text)))
  }

  /** Runs the tick over a sequence of samples, collecting the events. */
  function LegacyRun(w: Watcher, ss: seq<Sample>): (r: (Watcher, seq<AIChatMessage>))
    ensures |r.1| <= |ss|
    ensures !w.polling ==> r == (w, [])
    ensures forall i :: 0 <= i < |r.1| ==> WellFormed(r.1[i])
    ensures forall i :: 0 <= i < |r.1| - 1 ==> r.1[i].status != End
    decreases |ss|
  {
    if ss == [] then (w, [])
    else
      var (w1, e) := LegacyTick(w, ss[0]);
      var (w2, es) := LegacyRun(w1, ss[1..]);
      (w2, (if e.Some? then [e.value] else []) + es)
  }

  /** The appended slices of a sequence of events, concatenated. */
  function Apds(es: seq<AIChatMessage>): string {
    if es == [] then "" else es[0].apd + Apds(es[1..])
  }

  /** Each sample's text extends the previous one's. */
  predicate PrefixChain(ss: seq<Sample>) {
    forall i :: 1 <= i < |ss| ==> ss[i - 1].text <= ss[i].text
  }

  /** Every sample shows more divs than recorded, and only the last shows the
      idle send button. */
  predicate OneTurn(lastDivLength: nat, ss: seq<Sample>) {
    && |ss| >= 1
    && (forall i :: 0 <= i < |ss| ==> ss[i].divCount > lastDivLength)
    && (forall i :: 0 <= i < |ss| - 1 ==> !ss[i].sendButton)
    && ss[|ss| - 1].sendButton
  }

  /** A stopped watcher emits nothing and stays as it is. */
  lemma {:induction false} StoppedWatcherIsSilent(w: Watcher, ss: seq<Sample>)
    requires !w.polling
    ensures LegacyRun(w, ss) == (w, [])
    decreases |ss|
  {
    if ss != [] {
      StoppedWatcherIsSilent(w, ss[1..]);
    }
  }

  /** Running the ticks: the first tick's event (if any) comes first. */
  lemma LegacyRunCons(w: Watcher, ss: seq<Sample>)
    requires |ss| > 0
    ensures LegacyRun(w, ss).1
            == (if LegacyTick(w, ss[0]).1.Some? then [LegacyTick(w, ss[0]).1.value] else [])
               + LegacyRun(LegacyTick(w, ss[0]).0, ss[1..]).1
    ensures LegacyRun(w, ss).0 == LegacyRun(LegacyTick(w, ss[0]).0, ss[1..]).0
  {
  }

  /** The slices of an event followed by more events. */
  lemma ApdsCons(e: AIChatMessage, es: seq<AIChatMessage>)
    ensures Apds([e] + es) == e.apd + Apds(es)
  {
    assert ([e] + es)[1..] == es;
  }

  /** Dropping the first sample of a turn with at least two samples leaves a
      turn whose texts still extend one another. */
  lemma TurnRest(d: nat, ss: seq<Sample>)
    requires OneTurn(d, ss) && PrefixChain(ss) && |ss| >= 2
    ensures OneTurn(d, ss[1..]) && PrefixChain(ss[1..])
    ensures !ss[0].sendButton && ss[0].text <= ss[1..][0].text
  {
    var rest := ss[1..];
    assert forall i :: 0 <= i < |rest| ==> rest[i] == ss[i + 1];
    forall i | 1 <= i < |rest|
      ensures rest[i - 1].text <= rest[i].text
    {
      assert rest[i - 1] == ss[i] && rest[i] == ss[i + 1];
    }
  }

  /** The text seen before the last sample of a turn. */
  function Penultimate(w: Watcher, ss: seq<Sample>): string
    requires |ss| >= 1
  {
    if |ss| == 1 then w.lastText else ss[|ss| - 2].text
  }

  /** The middle of a turn: once some text has been seen, every tick before
      the last emits Replying, the last emits End with the full final text,
      and the appended slices rebuild the text of the last sample before the
      end from the text already seen. */
  lemma {:induction false} LegacyTurnContinues(w: Watcher, ss: seq<Sample>)
    requires w.polling && w.lastText != ""
    requires OneTurn(w.lastDivLength, ss)
    requires PrefixChain(ss) && w.lastText <= ss[0].text
    ensures |LegacyRun(w, ss).1| == |ss|
    ensures forall i :: 0 <= i < |ss| - 1 ==> LegacyRun(w, ss).1[i].status == Replying
    ensures LegacyRun(w, ss).1[|ss| - 1] == EndOf(ss[|ss| - 1].text)
    ensures w.lastText + Apds(LegacyRun(w, ss).1) == Penultimate(w, ss)
    ensures LegacyRun(w, ss).0 == Watcher("", 0, false)
    decreases |ss|
  {
    var (w1, e) := LegacyTick(w, ss[0]);
    LegacyRunCons(w, ss);
    var es := LegacyRun(w, ss).1;
    var tail := LegacyRun(w1, ss[1..]).1;
    assert es == [e.value] + tail;
    ApdsCons(e.value, tail);
    if |ss| == 1 {
      StoppedWatcherIsSilent(w1, ss[1..]);
    } else {
      TurnRest(w.lastDivLength, ss);
      assert w1 == w.(lastText := ss[0].text);
      assert |w.lastText| <= |ss[0].text|;
      LegacyTurnContinues(w1, ss[1..]);
      assert Penultimate(w1, ss[1..]) == Penultimate(w, ss);
      forall i | 0 <= i < |ss| - 1 ensures es[i].status == Replying {
        if i > 0 {
          assert es[i] == tail[i - 1];
        }
      }
    }
  }

  /** A whole turn, starting from a cleared watcher whose first sample has
      text: exactly one Start (carrying the first text), Replying events, and
      exactly one End carrying the final text; the appended slices
      concatenate to the text of the last sample before the end; and the
      watcher ends cleared and stopped, so it emits nothing afterwards. */
  lemma {:induction false} LegacyTurn(w: Watcher, ss: seq<Sample>)
    requires w.polling && w.lastText == ""
    requires OneTurn(w.lastDivLength, ss) && |ss| >= 2
    requires PrefixChain(ss) && ss[0].text != ""
    ensures |LegacyRun(w, ss).1| == |ss|
    ensures LegacyRun(w, ss).1[0] == StartOf(ss[0].text)
    ensures forall i :: 1 <= i < |ss| - 1 ==> LegacyRun(w, ss).1[i].status == Replying
    ensures LegacyRun(w, ss).1[|ss| - 1] == EndOf(ss[|ss| - 1].text)
    ensures Apds(LegacyRun(w, ss).1) == ss[|ss| - 2].text
    ensures LegacyRun(w, ss).0 == Watcher("", 0, false)
  {
    var (w1, e) := LegacyTick(w, ss[0]);
    TurnRest(w.lastDivLength, ss);
    assert e == Some(StartOf(ss[0].text));
    LegacyRunCons(w, ss);
    LegacyTurnContinues(w1, ss[1..]);
    var es := LegacyRun(w, ss).1;
    var tail := LegacyRun(w1, ss[1..]).1;
    assert es == [e.value] + tail;
    ApdsCons(e.value, tail);
    forall i | 1 <= i < |ss| - 1 ensures es[i].status == Replying {
      assert es[i] == tail[i - 1];
    }
  }

  /** The events of a turn whose first `k` samples have no text: `k` empty
      Starts, a Start with the first text, Replying events, and one End with
      the final text; the slices concatenate to the text of the last sample
      before the end. */
  predicate TurnEvents(es: seq<AIChatMessage>, ss: seq<Sample>, k: nat)
    requires k + 2 <= |ss|
  {
    && |es| == |ss|
    && (forall i :: 0 <= i < k ==> es[i] == StartOf(""))
    && es[k] == StartOf(ss[k].text)
    && (forall i :: k < i < |ss| - 1 ==> es[i].status == Replying)
    && es[|ss| - 1] == EndOf(ss[|ss| - 1].text)
    && Apds(es) == ss[|ss| - 2].text
  }

  /** One more leading empty sample adds one more empty Start in front. */
  lemma PrependEmptyStart(tail: seq<AIChatMessage>, ss: seq<Sample>, k: nat)
    requires 1 <= k && k + 2 <= |ss| && ss[0].text == ""
    requires TurnEvents(tail, ss[1..], k - 1)
    ensures TurnEvents([StartOf("")] + tail, ss, k)
  {
    var es := [StartOf("")] + tail;
    ApdsCons(StartOf(""), tail);
    assert forall i :: 1 <= i < |es| ==> es[i] == tail[i - 1];
    assert forall i :: 1 <= i < |ss| ==> ss[1..][i - 1] == ss[i];
  }

  /** A turn whose first `k` samples already show the new div but no text
      yet. Each of them emits `start('')`, since the last text is still empty
      afterwards. The first sample with text emits a further Start, the
      samples after it emit Replying, and the last emits End. So the turn
      has exactly `k + 1` Starts and one End (`TurnEvents`), and the watcher
      ends cleared and stopped. */
  lemma {:induction false} LegacyTurnAfterEmptySamples(w: Watcher, ss: seq<Sample>, k: nat)
    requires w.polling && w.lastText == ""
    requires OneTurn(w.lastDivLength, ss) && PrefixChain(ss)
    requires k + 2 <= |ss|
    requires forall i :: 0 <= i < k ==> ss[i].text == ""
    requires ss[k].text != ""
    ensures TurnEvents(LegacyRun(w, ss).1, ss, k)
    ensures LegacyRun(w, ss).0 == Watcher("", 0, false)
    decreases k
  {
    if k == 0 {
      LegacyTurn(w, ss);
    } else {
      TurnRest(w.lastDivLength, ss);
      EmptySampleStep(w, ss);
      var rest := ss[1..];
      assert forall i :: 0 <= i < k - 1 ==> rest[i].text == "" by {
        assert forall i :: 0 <= i < k - 1 ==> rest[i] == ss[i + 1];
      }
      assert rest[k - 1] == ss[k];
      LegacyTurnAfterEmptySamples(w, rest, k - 1);
      PrependEmptyStart(LegacyRun(w, rest).1, ss, k);
    }
  }

  /** A sample with the new div but no text yet emits `start('')` and leaves
      the watcher as it was. */
  lemma EmptySampleStep(w: Watcher, ss: seq<Sample>)
    requires w.polling && w.lastText == "" && |ss| >= 1
    requires ss[0].divCount > w.lastDivLength && !ss[0].sendButton && ss[0].text == ""
    ensures LegacyRun(w, ss).1 == [StartOf("")] + LegacyRun(w, ss[1..]).1
    ensures LegacyRun(w, ss).0 == LegacyRun(w, ss[1..]).0
  {
    assert LegacyTick(w, ss[0]) == (w, Some(StartOf("")));
    LegacyRunCons(w, ss);
  }

  /** A turn whose first tick already sees the idle send button emits a
      single End and no Start. */
  lemma LegacyImmediateEnd(w: Watcher, smp: Sample)
    requires w.polling && smp.divCount > w.lastDivLength && smp.sendButton
    ensures LegacyRun(w, [smp]).1 == [EndOf(smp.text)]
  {
    assert [smp][1..] == [];
  }

  /** A turn whose text first appears in the sample that already shows the
      send button: every earlier sample emits `start('')`, and the last one
      emits End with the text, with no Start carrying it. */
  lemma {:induction false} LegacyEndAfterEmptySamples(w: Watcher, ss: seq<Sample>)
    requires w.polling && w.lastText == ""
    requires OneTurn(w.lastDivLength, ss)
    requires forall i :: 0 <= i < |ss| - 1 ==> ss[i].text == ""
    ensures |LegacyRun(w, ss).1| == |ss|
    ensures forall i :: 0 <= i < |ss| - 1 ==> LegacyRun(w, ss).1[i] == StartOf("")
    ensures LegacyRun(w, ss).1[|ss| - 1] == EndOf(ss[|ss| - 1].text)
    ensures LegacyRun(w, ss).0 == Watcher("", 0, false)
    decreases |ss|
  {
    LegacyRunCons(w, ss);
    if |ss| == 1 {
      assert ss[1..] == [];
    } else {
      EmptySampleStep(w, ss);
      var rest := ss[1..];
      assert forall i :: 0 <= i < |rest| ==> rest[i] == ss[i + 1];
      assert OneTurn(w.lastDivLength, rest);
      LegacyEndAfterEmptySamples(w, rest);
      var tail := LegacyRun(w, rest).1;
      assert forall i :: 1 <= i < |ss| ==> LegacyRun(w, ss).1[i] == tail[i - 1];
    }
  }

  /** A reload mid-turn (`beforeReload` is `reset`) abandons the turn without
      an End, and the next turn's first event with text is a Start. */
  lemma LegacyReloadIsolatesTurns(w: Watcher, sent: nat, smp: Sample)
    requires smp.divCount > sent && smp.text != "" && !smp.sendButton
    ensures LegacyTick(LegacyReset(w), smp) == (LegacyReset(w), None)
    ensures var w' := LegacyStart(LegacyReset(w).(lastDivLength := sent));
            LegacyTick(w', smp).1 == Some(StartOf(smp.text))
  {
  }

  /** Samples "", "Hel", "Hello", "Hello world" and then the same text with
      the reply over, all after the new div appeared: the empty sample emits
      its own Start, then "Hel" emits a second one. */
  lemma LegacyExample()
    ensures var ss := [Sample(2, "", false), Sample(2, "Hel", false), Sample(2, "Hello", false),
                       Sample(2, "Hello world", false), Sample(2, "Hello world", true)];
            LegacyRun(Watcher("", 1, true), ss).1
              == [StartOf(""), StartOf("Hel"), ReplyingOf("lo", "Hello"),
                  ReplyingOf(" world", "Hello world"), EndOf("Hello world")]
  {
    var ss := [Sample(2, "", false), Sample(2, "Hel", false), Sample(2, "Hello", false),
               Sample(2, "Hello world", false), Sample(2, "Hello world", true)];
    var w0 := Watcher("", 1, true);
    var w1 := Watcher("Hel", 1, true);
    var w2 := Watcher("Hello", 1, true);
    var w3 := Watcher("Hello world", 1, true);
    assert "Hello"[3..] == "lo";
    assert "Hello world"[5..] == " world";
    assert LegacyTick(w0, ss[0]) == (w0, Some(StartOf("")));
    assert LegacyTick(w0, ss[1]) == (w1, Some(StartOf("Hel")));
    assert LegacyTick(w1, ss[2]) == (w2, Some(ReplyingOf("lo", "Hello")));
    assert LegacyTick(w2, ss[3]) == (w3, Some(ReplyingOf(" world", "Hello world")));
    assert LegacyTick(w3, ss[4]) == (Watcher("", 0, false), Some(EndOf("Hello world")));
    assert ss[1..][1..][1..][1..][1..] == [];
  }
}

=== FILE: core.dfy ===
/** The worker lifecycle (src/core.ts, class `ChatWorker`) with the Cutterman
    hooks plugged in: reading the configuration, the three steps of `main`,
    the retry decision, and the dispatch of commands from the supervisor.

    Browser work is not performed: the outcome of the k-th call of `main` is
    an input (`outcomes(k)`), and what the worker does is recorded as a trace
    of `Effect`s. */
module Core {

  import opened JsValues
  import opened Wrappers
  import opened Effects
  import WorkerMessages
  import ChatCutterman

  /** The part of the configuration the lifecycle reads. The rest (browser
      path, credentials, headless, the AI kind) only parameterises the
      browser driver. */
  datatype Config = Config(retryCount: int)

  /** The worker's own fields: the retry counter, whether a browser was ever
      launched (`this.browser` is then truthy), and the session state. */
  datatype WorkerState = WorkerState(retries: nat, browser: bool, session: ChatCutterman.Session)

  /** A freshly constructed worker, on a filesystem where the cookies file
      may already exist and may be impossible to delete. */
  function Fresh(cookiesOnDisk: bool, cookiesLocked: bool): (st: WorkerState)
    ensures st.retries == 0 && !st.browser
    ensures st.session == ChatCutterman.Session(0, cookiesOnDisk, cookiesLocked)
  {
    WorkerState(0, false, ChatCutterman.Session(0, cookiesOnDisk, cookiesLocked))
  }

  /** How `init` ended: the launch threw (no browser), the navigation threw
      (browser launched), or it completed. */
  datatype InitOutcome = LaunchFailed | NavigationFailed | Launched

  /** How the Cutterman `signIn` ended: `saveCookies` threw, the wait for the
      input box timed out (cookies already written), or it completed. */
  datatype SignInOutcome = CookiesNotSaved | InputTimedOut | SignedIn

  /** The outcomes of one call of `main`; `ready` says whether the Cutterman
      `ready` got through its waits to the base `ready`. */
  datatype Attempt = Attempt(init: InitOutcome, signIn: SignInOutcome, ready: bool)

  /** Step `k` of `main` (0 init, 1 signIn, 2 ready) completes. */
  predicate StepOk(a: Attempt, k: nat) {
    if k == 0 then a.init == Launched
    else if k == 1 then a.signIn == SignedIn
    else if k == 2 then a.ready
    else true
  }

  predicate Succeeds(a: Attempt) {
    StepOk(a, 0) && StepOk(a, 1) && StepOk(a, 2)
  }

  /** The message the base `ready` posts: `build(Ready)`. */
  function ReadyMessage(): (m: WorkerMessages.Message)
    ensures m == WorkerMessages.Message(WorkerMessages.Ready, Str("none"), Null)
  {
    WorkerMessages.Build(WorkerMessages.Ready)
  }

  /** Everything a successful `main` does, in order. */
  function MainTrace(): seq<Effect> {
    [Perform(Init), Perform(SignIn), Perform(ReadyStep), Post(ReadyMessage())]
  }

  datatype MainResult = MainResult(state: WorkerState, effects: seq<Effect>, ok: bool)

  /** `main`: init, signIn, ready, in that order. A step that throws skips the
      later ones, and Ready is posted only when `ready` completes. */
  function Main(st: WorkerState, a: Attempt): (r: MainResult)
    ensures r.ok <==> Succeeds(a)
    ensures 1 <= |r.effects| <= 4 && r.effects == MainTrace()[..|r.effects|]
    ensures forall k :: 0 <= k < |r.effects| - 1 ==> StepOk(a, k)
    ensures !r.ok ==> |r.effects| <= 3 && !StepOk(a, |r.effects| - 1)
    ensures Post(ReadyMessage()) in r.effects <==> r.ok
    ensures MainCalls(r.effects) == 1
    ensures r.state.retries == st.retries
    ensures r.state.browser <==> st.browser || a.init != LaunchFailed
    ensures r.state.session.lastDivLength == st.session.lastDivLength
  {
    var st1 := st.(browser := st.browser || a.init != LaunchFailed);
    if a.init != Launched then
      MainResult(st1, [Perform(Init)], false)
    else
      var st2 := if a.signIn == CookiesNotSaved then st1
                 else st1.(session := st1.session.(cookiesSaved := true));
      if a.signIn != SignedIn then
        MainResult(st2, [Perform(Init), Perform(SignIn)], false)
      else if !a.ready then
        MainResult(st2, [Perform(Init), Perform(SignIn), Perform(ReadyStep)], false)
      else
        MainResult(st2, MainTrace(), true)
  }

  /** How `run` ended: it resolved with the worker ready (`Idle`), the
      process exited, or a rejection escaped `run` (the thread's wrapper only
      logs it). */
  datatype Termination = Idle | Exited(code: int) | Escaped

  datatype Outcome = Outcome(state: WorkerState, effects: seq<Effect>, ended: Termination)

  /** The state `retry` hands to `main`: one more retry counted and the
      cookies cleared by `beforeRetry`, the browser flag untouched. */
  function Counted(st: WorkerState): WorkerState {
    st.(retries := st.retries + 1, session := ChatCutterman.BeforeRetry(st.session).0)
  }

  /** What `retry` does before calling `main` again: report, count the
      retry, clear the cookies (`beforeRetry`), close the browser if one was
      launched, report again. */
  function RetryPrelude(st: WorkerState): (r: (WorkerState, seq<Effect>))
    ensures r.0 == Counted(st)
    ensures r.0.retries == st.retries + 1 && r.0.browser == st.browser
    ensures r.0.session.cookiesSaved <==> st.session.cookiesSaved && st.session.cookiesLocked
    ensures r.0.session.lastDivLength == st.session.lastDivLength
    ensures |r.1| > 0 && r.1[0] == Report("retry")
    ensures MainCalls(r.1) == 0
    ensures CloseBrowser in r.1 <==> st.browser
    ensures Post(ReadyMessage()) !in r.1
  {
    var (session, hook) := ChatCutterman.BeforeRetry(st.session);
    var close := if st.browser then [CloseBrowser] else [];
    var tail := [Report("close browser, ready to call main again")];
    var effs := [Report("retry")] + hook + close + tail;
    assert MainCalls(effs) == 0 by {
      MainCallsAppend([Report("retry")] + hook + close, tail);
      MainCallsAppend([Report("retry")] + hook, close);
      MainCallsAppend([Report("retry")], hook);
    }
    (st.(retries := st.retries + 1, session := session), effs)
  }

  /** `retry`, with the outcome of the `main` it calls. With the budget spent
      it reports and exits with code 1, without counting or calling `main`.
      Otherwise it counts one retry, clears the cookies, closes the browser
      if there is one and calls `main` again, outside any `try`: a failure
      there escapes. */
  function Retry(cfg: Config, st: WorkerState, a: Attempt): (r: Outcome)
    ensures st.retries >= cfg.retryCount ==>
              && r.state == st && r.ended == Exited(1) && MainCalls(r.effects) == 0
              && ReportError("retry over count") in r.effects
    ensures st.retries < cfg.retryCount ==>
              && r.state.retries == st.retries + 1
              && |r.effects| > 0 && r.effects[0] == Report("retry")
              && MainCalls(r.effects) == 1
              && (r.ended == Idle <==> Succeeds(a))
              && (r.ended == Escaped <==> !Succeeds(a))
    ensures CloseBrowser in r.effects <==> st.retries < cfg.retryCount && st.browser
    ensures Post(ReadyMessage()) in r.effects <==> r.ended == Idle
  {
    if st.retries >= cfg.retryCount then
      Outcome(st, [ReportError("retry over count"), ExitThread(1)], Exited(1))
    else
      var (counted, pre) := RetryPrelude(st);
      var m := Main(counted, a);
      MainCallsAppend(pre, m.effects);
      Outcome(m.state, pre + m.effects, if m.ok then Idle else Escaped)
  }

  /** The order of a retry that still has budget: everything `retry` does
      before `main` (the report, the cookie clear, closing a launched
      browser) comes first and calls nothing, then exactly the trace of
      `main` run on the counted state, whose final state is the result. */
  lemma RetryOrder(cfg: Config, st: WorkerState, a: Attempt)
    ensures st.retries < cfg.retryCount ==>
              var m := Main(Counted(st), a);
              var r := Retry(cfg, st, a);
              && r.state == m.state
              && exists pre :: && r.effects == pre + m.effects
                               && MainCalls(pre) == 0
                               && |pre| > 0 && pre[0] == Report("retry")
                               && (CloseBrowser in pre <==> st.browser)
  {
    if st.retries < cfg.retryCount {
      var pre := RetryPrelude(st).1;
      assert Retry(cfg, st, a).effects == pre + Main(Counted(st), a).effects;
    }
  }

  /** `run`: read the configuration (a missing file exits with code 1), call
      `main`, and on failure report and `retry`. */
  function Run(cfg: Option<Config>, st: WorkerState, outcomes: nat -> Attempt): (r: Outcome)
    ensures cfg.None? ==> r.state == st && r.ended == Exited(1) && MainCalls(r.effects) == 0
    ensures cfg.None? ==> ReportError("read config error") in r.effects
  {
    var opening := [Report("start read config")];
    match cfg
    case None =>
      assert MainCalls(opening + [ReportError("read config error"), ExitThread(1)]) == 0 by {
        MainCallsAppend(opening, [ReportError("read config error"), ExitThread(1)]);
      }
      Outcome(st, opening + [ReportError("read config error"), ExitThread(1)], Exited(1))
    case Some(c) =>
      var m := Main(st, outcomes(0));
      var pre := opening + [Report("read config complete")] + m.effects;
      if m.ok then
        Outcome(m.state, pre, Idle)
      else
        var o := Retry(c, m.state, outcomes(1));
        Outcome(o.state, pre + [ReportError("something wrong, retry now")] + o.effects, o.ended)
  }

  /** Where the trace of a configured `run` comes from. */
  lemma RunShape(c: Config, st: WorkerState, outcomes: nat -> Attempt)
    ensures var r := Run(Some(c), st, outcomes);
            var m := Main(st, outcomes(0));
            var pre := [Report("start read config"), Report("read config complete")] + m.effects;
            && (m.ok ==> r == Outcome(m.state, pre, Idle))
            && (!m.ok ==>
                  && r.effects == pre + [ReportError("something wrong, retry now")]
                                  + Retry(c, m.state, outcomes(1)).effects
                  && r.ended == Retry(c, m.state, outcomes(1)).ended
                  && r.state == Retry(c, m.state, outcomes(1)).state)
  {
    var m := Main(st, outcomes(0));
    assert [Report("start read config")] + [Report("read config complete")] + m.effects
        == [Report("start read config"), Report("read config complete")] + m.effects;
  }

  /** Per `run`, `main` is entered at most twice whatever the retry budget,
      because a failure of the retried `main` is not caught; it is entered
      twice exactly when the first call failed and a retry was granted. The
      retry counter grows by at most one and never shrinks. */
  lemma {:induction false} RunCallsMainAtMostTwice(cfg: Option<Config>, st: WorkerState, outcomes: nat -> Attempt)
    ensures MainCalls(Run(cfg, st, outcomes).effects) <= 2
    ensures cfg.Some? ==>
              MainCalls(Run(cfg, st, outcomes).effects)
              == if !Succeeds(outcomes(0)) && st.retries < cfg.value.retryCount then 2 else 1
    ensures cfg.None? ==> MainCalls(Run(cfg, st, outcomes).effects) == 0
    ensures st.retries <= Run(cfg, st, outcomes).state.retries <= st.retries + 1
    ensures Run(cfg, st, outcomes).ended == Escaped ==> MainCalls(Run(cfg, st, outcomes).effects) == 2
  {
    if cfg.Some? {
      var c := cfg.value;
      RunShape(c, st, outcomes);
      var m := Main(st, outcomes(0));
      var head := [Report("start read config"), Report("read config complete")];
      MainCallsAppend(head, m.effects);
      assert MainCalls(head) == 0;
      if !m.ok {
        var o := Retry(c, m.state, outcomes(1));
        MainCallsAppend(head + m.effects, [ReportError("something wrong, retry now")]);
        MainCallsAppend(head + m.effects + [ReportError("something wrong, retry now")], o.effects);
      }
    }
  }

  /** With no retries left (in particular `retryCount` 0 on a fresh worker),
      the first failure of `main` ends in `exit(1)` after exactly one call. */
  lemma {:induction false} NoRetriesLeftExitsAfterOneAttempt(c: Config, st: WorkerState, outcomes: nat -> Attempt)
    requires st.retries >= c.retryCount
    requires !Succeeds(outcomes(0))
    ensures Run(Some(c), st, outcomes).ended == Exited(1)
    ensures MainCalls(Run(Some(c), st, outcomes).effects) == 1
    ensures ExitThread(1) in Run(Some(c), st, outcomes).effects
  {
    RunCallsMainAtMostTwice(Some(c), st, outcomes);
    RunShape(c, st, outcomes);
    var m := Main(st, outcomes(0));
    var o := Retry(c, m.state, outcomes(1));
    assert o.effects == [ReportError("retry over count"), ExitThread(1)];
    var r := Run(Some(c), st, outcomes);
    assert r.effects[|r.effects| - 1] == ExitThread(1);
  }

  /** A missing configuration file exits with the same code as an exhausted
      retry budget, before `main` is ever called. */
  lemma ConfigMissingExitsLikeExhaustion(c: Config, st: WorkerState, outcomes: nat -> Attempt)
    requires st.retries >= c.retryCount
    ensures Run(None, st, outcomes).ended == Retry(c, st, outcomes(0)).ended == Exited(1)
    ensures MainCalls(Run(None, st, outcomes).effects) == 0
  {
  }

  /** The worker announces Ready exactly when `run` resolves normally, and
      only a completed `main` gets there. */
  lemma {:induction false} ReadyPostedIffIdle(cfg: Option<Config>, st: WorkerState, outcomes: nat -> Attempt)
    ensures Post(ReadyMessage()) in Run(cfg, st, outcomes).effects <==> Run(cfg, st, outcomes).ended == Idle
  {
    if cfg.Some? {
      var c := cfg.value;
      RunShape(c, st, outcomes);
      var m := Main(st, outcomes(0));
      var head := [Report("start read config"), Report("read config complete")];
      if !m.ok {
        var o := Retry(c, m.state, outcomes(1));
        var r := Run(cfg, st, outcomes);
        assert r.effects == head + m.effects + [ReportError("something wrong, retry now")] + o.effects;
        assert Post(ReadyMessage()) !in head + m.effects + [ReportError("something wrong, retry now")];
      }
    }
  }

  /** A failure of the retried `main` escapes `run`: the worker neither
      retries again nor exits, however large the retry budget. */
  lemma RetriedFailureEscapes(c: Config, st: WorkerState, outcomes: nat -> Attempt)
    requires st.retries < c.retryCount
    requires !Succeeds(outcomes(0)) && !Succeeds(outcomes(1))
    ensures Run(Some(c), st, outcomes).ended == Escaped
    ensures Run(Some(c), st, outcomes).state.retries == st.retries + 1
  {
  }

  /** An attempt whose browser launch throws. */
  const LaunchFails := Attempt(LaunchFailed, CookiesNotSaved, false)

  /** The source as written: with `retryCount` 2 and a browser that never
      launches, `run` gives up after the first retry with the rejection
      escaping, instead of retrying twice and exiting with code 1. */
  lemma RetryBudgetUnreachableAsWritten()
    ensures var r := Run(Some(Config(2)), Fresh(false, false), k => LaunchFails);
            && r.ended == Escaped
            && r.state.retries == 1
            && MainCalls(r.effects) == 2
            && ExitThread(1) !in r.effects
  {
    var outcomes: nat -> Attempt := k => LaunchFails;
    RunCallsMainAtMostTwice(Some(Config(2)), Fresh(false, false), outcomes);
    RetriedFailureEscapes(Config(2), Fresh(false, false), outcomes);
  }

  /** The retries still allowed from state `st`. */
  function Budget(cfg: Config, st: WorkerState): nat {
    if cfg.retryCount > st.retries then cfg.retryCount - st.retries else 0
  }

  /** The evidently intended retry behaviour: retry until `main` succeeds or
      the budget is spent, then exit with code 1. `main` runs at most
      budget + 1 times, and exactly that often when the worker gives up. */
  method RunIntended(cfg: Config, st: WorkerState, outcomes: nat -> Attempt)
    returns (calls: nat, final: WorkerState, ended: Termination)
    ensures ended == Idle || ended == Exited(1)
    ensures 1 <= calls <= Budget(cfg, st) + 1
    ensures final.retries == st.retries + calls - 1
    ensures ended == Idle <==> Succeeds(outcomes(calls - 1))
    ensures forall k :: 0 <= k < calls - 1 ==> !Succeeds(outcomes(k))
    ensures ended == Exited(1) ==> calls == Budget(cfg, st) + 1
  {
    var m := Main(st, outcomes(0));
    calls := 1;
    while !m.ok && m.state.retries < cfg.retryCount
      invariant 1 <= calls <= Budget(cfg, st) + 1
      invariant m.state.retries == st.retries + calls - 1
      invariant m.ok <==> Succeeds(outcomes(calls - 1))
      invariant forall k :: 0 <= k < calls - 1 ==> !Succeeds(outcomes(k))
      decreases cfg.retryCount - m.state.retries
    {
      var (counted, _) := RetryPrelude(m.state);
      m := Main(counted, outcomes(calls));
      calls := calls + 1;
    }
    final := m.state;
    ended := if m.ok then Idle else Exited(1);
  }

  /** The constructor's `message` listener: `Refresh` runs `beforeReload` and
      reloads the page, `Exit` closes the page and exits with code 0, and
      anything else goes to the subclass's `receiveMessage`. */
  function HandleMessage(st: WorkerState, m: WorkerMessages.Message): (r: (WorkerState, seq<Effect>))
    ensures r.0.retries == st.retries && r.0.browser == st.browser
    ensures MainCalls(r.1) == 0
    ensures m.kind == WorkerMessages.Refresh ==>
              r.0.session == ChatCutterman.BeforeReload(st.session) && r.1 == [ReloadPage]
    ensures m.kind == WorkerMessages.Exit ==> r == (st, [ClosePage, ExitThread(0)])
    ensures m.kind != WorkerMessages.Refresh && m.kind != WorkerMessages.Exit ==> r == (st, [Receive(m)])
  {
    match m.kind
    case Refresh => (st.(session := ChatCutterman.BeforeReload(st.session)), [ReloadPage])
    case Exit => (st, [ClosePage, ExitThread(0)])
    case _ => (st, [Receive(m)])
  }

  /** Handles a sequence of commands; nothing is handled after `Exit`. */
  function HandleAll(st: WorkerState, ms: seq<WorkerMessages.Message>): (WorkerState, seq<Effect>)
    decreases |ms|
  {
    if ms == [] then (st, [])
    else
      var (st1, e1) := HandleMessage(st, ms[0]);
      if ms[0].kind == WorkerMessages.Exit then (st1, e1)
      else
        var (st2, e2) := HandleAll(st1, ms[1..]);
        (st2, e1 + e2)
  }

  /** Commands never touch the retry counter and never re-run `main`. */
  lemma {:induction false} CommandsKeepRetryCount(st: WorkerState, ms: seq<WorkerMessages.Message>)
    ensures HandleAll(st, ms).0.retries == st.retries
    ensures MainCalls(HandleAll(st, ms).1) == 0
    decreases |ms|
  {
    if ms != [] && ms[0].kind != WorkerMessages.Exit {
      var (st1, e1) := HandleMessage(st, ms[0]);
      CommandsKeepRetryCount(st1, ms[1..]);
      MainCallsAppend(e1, HandleAll(st1, ms[1..]).1);
    }
  }

  /** Any number of reloads followed by a genuine failure still counts as
      the first retry. */
  lemma ReloadsThenFailureIsFirstRetry(c: Config, ms: seq<WorkerMessages.Message>, a: Attempt, cookies: bool, locked: bool)
    requires c.retryCount >= 1
    ensures Retry(c, HandleAll(Fresh(cookies, locked), ms).0, a).state.retries == 1
  {
    CommandsKeepRetryCount(Fresh(cookies, locked), ms);
  }

  /** `Exit` ends the command stream: it is the last effect, with code 0. */
  lemma {:induction false} ExitIsFinal(st: WorkerState, ms: seq<WorkerMessages.Message>, i: nat)
    requires i < |ms| && ms[i].kind == WorkerMessages.Exit
    requires forall j :: 0 <= j < i ==> ms[j].kind != WorkerMessages.Exit
    ensures var es := HandleAll(st, ms).1; |es| >= 2 && es[|es| - 1] == ExitThread(0)
    decreases i
  {
    if i > 0 {
      var (st1, e1) := HandleMessage(st, ms[0]);
      assert ms[1..][i - 1] == ms[i];
      ExitIsFinal(st1, ms[1..], i - 1);
    }
  }
}

=== FILE: effects.dfy ===
/** The observable things a worker does, recorded in order instead of being
    performed: messages posted to the parent thread, browser actions and
    the worker's exit. */
module Effects {

  import WorkerMessages

  /** The three steps of `main`. */
  datatype Step = Init | SignIn | ReadyStep

  datatype Effect =
    | Report(text: string)        // `report`: a JSON string posted upstream
    | ReportError(text: string)   // `reportError`: likewise, with the error
    | Perform(step: Step)         // a step of `main` was entered
    | Post(msg: WorkerMessages.Message)  // a message object posted upstream
    | CloseBrowser
    | ReloadPage
    | ClosePage
    | Receive(msg: WorkerMessages.Message)  // handed to the subclass hook
    | ExitThread(code: int)       // `process.exit` inside a worker thread:
                                  // it stops only this thread, and the
                                  // supervisor sees the code on `exit`

  /** How many times `main` was entered in a trace. */
  function MainCalls(es: seq<Effect>): nat {
    if es == [] then 0
    else (if es[0] == Perform(Init) then 1 else 0) + MainCalls(es[1..])
  }

  /** Counting `main` entries distributes over concatenated traces. */
  lemma {:induction false} MainCallsAppend(a: seq<Effect>, b: seq<Effect>)
    ensures MainCalls(a + b) == MainCalls(a) + MainCalls(b)
    decreases |a|
  {
    if a == [] {
      assert a + b == b;
    } else {
      assert (a + b)[0] == a[0];
      assert (a + b)[1..] == a[1..] + b;
      MainCallsAppend(a[1..], b);
    }
  }
}

=== FILE: js_values.dfy ===
/** JavaScript values, as far as the worker protocol inspects them.

    The protocol's payloads are typed `any`; the only thing the core ever asks
    of such a value is whether it is truthy (`if (data)`, `if (message)`,
    `if (eventHandler)`), so the model keeps just enough structure to decide
    that, plus identity for objects. */
module JsValues {

  datatype Value =
    | Undefined
    | Null
    | Bool(b: bool)
    | Num(n: int)      // integral numbers; other floats are left out
    | NaN
    | Str(s: string)
    | Obj(ref: nat)    // any object, array or function, by identity

  /** ToBoolean, the conversion an `if` applies to its condition. */
  predicate Truthy(v: Value) {
    match v
    case Undefined => false
    case Null => false
    case Bool(b) => b
    case Num(n) => n != 0
    case NaN => false
    case Str(s) => s != ""
    case Obj(_) => true
  }

  /** The falsy values, listed the way the language definition lists them. */
  const Falsy: set<Value> := {Undefined, Null, Bool(false), Num(0), NaN, Str("")}

  /** Truthiness agrees with the enumerated list of falsy values. */
  lemma TruthyIffNotFalsy(v: Value)
    ensures Truthy(v) <==> v !in Falsy
  {
  }
}

=== FILE: worker_message.dfy ===
/** The envelope exchanged between the supervisor and the worker thread
    (src/models/WorkerMessage.ts, src/types/WorkerMessageType.ts). */
module WorkerMessages {

  import opened JsValues

  /** The message-type enum, in declaration order (`Exit` is 0, `Refresh` is 6). */
  datatype MessageType = Exit | Ready | Report | Error | Question | Answer | Refresh

  /** The constructor stores its three arguments verbatim: it is exactly this
      datatype constructor, with no defaulting. */
  datatype Message = Message(kind: MessageType, message: Value, data: Value)

  /** `WorkerMessage.build`. An omitted argument is `Undefined`. The defaulting
      is driven by truthiness, not by whether an argument was passed: falsy
      `data` becomes `null`, and a falsy `message` with falsy `data` becomes
      `'none'`. */
  function Build(kind: MessageType, message: Value := Undefined, data: Value := Undefined): (r: Message)
    ensures r.kind == kind
    ensures Truthy(data) ==> r.data == data
    ensures !Truthy(data) ==> r.data == Null
    ensures Truthy(data) || Truthy(message) ==> r.message == message
    ensures !Truthy(data) && !Truthy(message) ==> r.message == Str("none")
  {
    if Truthy(data) then
      Message(kind, message, data)
    else if Truthy(message) then
      Message(kind, message, Null)
    else
      Message(kind, Str("none"), Null)
  }

  /** The shape every built message has: either its data is truthy, or its
      data is `null` and its message is truthy. */
  predicate Normal(m: Message) {
    Truthy(m.data) || (m.data == Null && Truthy(m.message))
  }

  /** `Build` always yields a normal message, and a normal message is left
      unchanged when rebuilt: the normal messages are exactly the results
      of `Build`, and rebuilding is idempotent. */
  lemma BuildNormalForm(kind: MessageType, message: Value, data: Value)
    ensures Normal(Build(kind, message, data))
    ensures var r := Build(kind, message, data); Build(r.kind, r.message, r.data) == r
    ensures forall m: Message :: Normal(m) ==> Build(m.kind, m.message, m.data) == m
  {
  }

  /** Present-but-falsy arguments are treated as absent. Any value on the
      list of falsy values (an empty string, zero, `false`, `NaN`, null,
      undefined) given as data is dropped to `null`, and the message is then
      kept only if it is off that list, becoming `'none'` otherwise. With
      data off the list, a falsy message is kept as it is. */
  lemma BuildDropsFalsyArguments(kind: MessageType, message: Value, data: Value)
    ensures data in Falsy ==> Build(kind, message, data).data == Null
    ensures data in Falsy ==>
              Build(kind, message, data).message == (if message in Falsy then Str("none") else message)
    ensures data !in Falsy ==> Build(kind, message, data) == Message(kind, message, data)
  {
    TruthyIffNotFalsy(data);
    TruthyIffNotFalsy(message);
  }
}

=== FILE: worker_proxy.dfy ===
/** The supervisor-side proxy (src/helpers/WorkerProxy.ts): a registry of
    handler lists keyed by event name, the routing of worker events onto those
    lists, and the command messages posted to the worker.

    Handlers are compared by identity (`===`), so they are values of an
    arbitrary equality type `H`. Invoking a handler is recorded as an
    `Invocation` instead of being run. */
module WorkerProxy {

  import opened JsValues
  import opened Wrappers
  import WorkerMessages

  /** The five channel names of the `EventName` enum. */
  datatype EventName = Message | Error | Exit | Online | Ready

  type Registry<H> = map<EventName, seq<H>>

  /** Every channel has a handler list (the constructor creates all five). */
  predicate Valid<H>(r: Registry<H>) {
    forall n: EventName :: n in r
  }

  /** The registry the constructor builds: five empty channels. */
  function Init<H>(): (r: Registry<H>)
    ensures Valid(r)
    ensures forall n: EventName :: r[n] == []
  {
    var r := map[Message := [], Error := [], Exit := [], Online := [], Ready := []];
    FiveNamesSuffice(r);
    r
  }

  /** A map holding the five names holds every name. */
  lemma FiveNamesSuffice<H>(r: Registry<H>)
    requires Message in r && Error in r && Exit in r && Online in r && Ready in r
    ensures Valid(r)
  {
    forall n: EventName ensures n in r {
      match n
      case Message =>
      case Error =>
      case Exit =>
      case Online =>
      case Ready =>
    }
  }

  /** `on(name, handler)`: append to the end of the channel. */
  function On<H>(r: Registry<H>, n: EventName, h: H): (r': Registry<H>)
    requires Valid(r)
    ensures Valid(r')
    ensures r'[n] == r[n] + [h]
    ensures forall m: EventName :: m != n ==> r'[m] == r[m]
  {
    r[n := r[n] + [h]]
  }

  /** Registers `hs` one after another on channel `n`. */
  function OnAll<H>(r: Registry<H>, n: EventName, hs: seq<H>): (r': Registry<H>)
    requires Valid(r)
    ensures Valid(r')
    decreases |hs|
  {
    if hs == [] then r else OnAll(On(r, n, hs[0]), n, hs[1..])
  }

  /** Successive `on` calls append in call order and touch no other channel. */
  lemma {:induction false} OnAllAppends<H>(r: Registry<H>, n: EventName, hs: seq<H>)
    requires Valid(r)
    ensures OnAll(r, n, hs)[n] == r[n] + hs
    ensures forall m: EventName :: m != n ==> OnAll(r, n, hs)[m] == r[m]
    decreases |hs|
  {
    if hs != [] {
      OnAllAppends(On(r, n, hs[0]), n, hs[1..]);
      assert [hs[0]] + hs[1..] == hs;
      assert r[n] + [hs[0]] + hs[1..] == r[n] + hs;
    }
  }

  /** `Array.prototype.findIndex(item => item === h)`: the first index holding
      `h`, or -1 when there is none. */
  function FindIndex<H(==)>(s: seq<H>, h: H): (i: int)
    ensures -1 <= i < |s|
    ensures i == -1 <==> h !in s
    ensures 0 <= i ==> s[i] == h && h !in s[..i]
  {
    if s == [] then -1
    else if s[0] == h then 0
    else
      var k := FindIndex(s[1..], h);
      if k == -1 then -1
      else
        assert s[..k + 1] == [s[0]] + s[1..][..k];
        k + 1
  }

  /** Where `splice(start, …)` starts on an array of length `len`: a negative
      start counts back from the end (stopping at 0), a start past the end is
      the end. */
  function SpliceStart(len: nat, start: int): (a: nat)
    ensures a <= len
    ensures 0 <= start <= len ==> a == start
    ensures len < start ==> a == len
    ensures start < 0 && 0 <= len + start ==> a == len + start
    ensures len + start < 0 ==> a == 0
  {
    if start < 0 then (if len + start < 0 then 0 else len + start)
    else if start > len then len
    else start
  }

  /** How many elements `splice(…, deleteCount)` removes when `room`
      elements follow the start: the count clamped to `[0, room]`. */
  function SpliceCount(room: nat, deleteCount: int): (d: nat)
    ensures d <= room
    ensures 0 <= deleteCount <= room ==> d == deleteCount
    ensures deleteCount < 0 ==> d == 0
    ensures room < deleteCount ==> d == room
  {
    if deleteCount < 0 then 0 else if deleteCount > room then room else deleteCount
  }

  /** The array `splice(start, deleteCount)` leaves behind (the removed
      elements it returns are never used): everything before the clamped
      start, then everything after the removed run. */
  function Splice<H>(s: seq<H>, start: int, deleteCount: int): (r: seq<H>)
    ensures var a := SpliceStart(|s|, start);
            var d := SpliceCount(|s| - a, deleteCount);
            |r| == |s| - d && r[..a] == s[..a] && r[a..] == s[a + d..]
  {
    var a := SpliceStart(|s|, start);
    var d := SpliceCount(|s| - a, deleteCount);
    s[..a] + s[a + d..]
  }

  /** `off(name)` and `off(name, handler)`. With a handler, the index
      `findIndex` returns is handed to `splice(i, 1)` unchecked, so an
      unregistered handler (index -1) removes the LAST handler. Without one,
      the channel is emptied. */
  function Off<H(==)>(r: Registry<H>, n: EventName, h: Option<H>): (r': Registry<H>)
    requires Valid(r)
    ensures Valid(r')
    ensures forall m: EventName :: m != n ==> r'[m] == r[m]
    ensures |r'[n]| == if h.None? || |r[n]| == 0 then 0 else |r[n]| - 1
  {
    match h
    case Some(fn) => r[n := Splice(r[n], FindIndex(r[n], fn), 1)]
    case None => r[n := Splice(r[n], 0, |r[n]|)]
  }

  /** `splice(i, 1)` at a valid index removes exactly element `i`. */
  lemma SpliceOneAt<H>(s: seq<H>, i: nat)
    requires i < |s|
    ensures Splice(s, i, 1) == s[..i] + s[i + 1..]
  {
    var r := Splice(s, i, 1);
    assert r[..i] == s[..i] && r[i..] == s[i + 1..];
    assert r == r[..i] + r[i..];
  }

  /** Removing element `i` takes one copy of it out of the multiset. */
  lemma RemoveAtMultiset<H>(s: seq<H>, i: nat)
    requires i < |s|
    ensures multiset(s[..i] + s[i + 1..]) + multiset{s[i]} == multiset(s)
  {
    assert s == s[..i] + [s[i]] + s[i + 1..];
  }

  /** Removing a registered handler removes exactly its first occurrence and
      keeps the order of the rest. */
  lemma OffRegistered<H>(r: Registry<H>, n: EventName, h: H)
    requires Valid(r) && h in r[n]
    ensures exists i :: 0 <= i < |r[n]| && r[n][i] == h && h !in r[n][..i]
                        && Off(r, n, Some(h))[n] == r[n][..i] + r[n][i + 1..]
    ensures multiset(Off(r, n, Some(h))[n]) + multiset{h} == multiset(r[n])
  {
    var s := r[n];
    var i := FindIndex(s, h);
    SpliceOneAt(s, i);
    assert Off(r, n, Some(h))[n] == s[..i] + s[i + 1..];
    RemoveAtMultiset(s, i);
  }

  /** Removing a handler that is not registered drops the channel's last
      handler (if any) instead of doing nothing. */
  lemma OffUnregisteredDropsLast<H>(r: Registry<H>, n: EventName, h: H)
    requires Valid(r) && h !in r[n]
    ensures |r[n]| > 0 ==> Off(r, n, Some(h))[n] == r[n][..|r[n]| - 1]
    ensures |r[n]| == 0 ==> Off(r, n, Some(h))[n] == []
  {
    var s := r[n];
    if |s| > 0 {
      assert SpliceStart(|s|, -1) == |s| - 1;
      assert s[..|s| - 1] + s[|s|..] == s[..|s| - 1];
    }
  }

  /** Clearing empties the channel only, and clearing twice is clearing once. */
  lemma OffClears<H>(r: Registry<H>, n: EventName)
    requires Valid(r)
    ensures Off(r, n, None)[n] == []
    ensures Off(Off(r, n, None), n, None) == Off(r, n, None)
  {
    var r1 := Off(r, n, None);
    assert r1[n] == [];
    var r2 := Off(r1, n, None);
    assert forall m: EventName :: r2[m] == r1[m];
    assert r2.Keys == r1.Keys;
  }

  /** What the worker thread can emit, as seen by `initWorkerEvent`. A posted
      payload is either a message object or, for `report`/`reportError`, the
      JSON text of one. */
  datatype Inbound = Posted(msg: WorkerMessages.Message) | Serialized(json: string)

  datatype WorkerEvent =
    | MessageFrom(data: Inbound)
    | ErrorFrom(err: Value)
    | ExitWith(code: int)
    | CameOnline

  /** The channel an event is fanned out to. A posted payload goes to `ready`
      when its `type` is `Ready`, otherwise to `message`; a JSON string has no
      `type` field and therefore always goes to `message`. */
  function ChannelOf(e: WorkerEvent): (n: EventName)
    ensures e.MessageFrom? ==> (n == Ready <==> e.data.Posted? && e.data.msg.kind == WorkerMessages.Ready)
    ensures e.MessageFrom? ==> (n == Message || n == Ready)
    ensures e.ErrorFrom? <==> n == Error
    ensures e.ExitWith? <==> n == Exit
    ensures e.CameOnline? <==> n == Online
  {
    match e
    case MessageFrom(Posted(m)) => if m.kind == WorkerMessages.Ready then Ready else Message
    case MessageFrom(Serialized(_)) => Message
    case ErrorFrom(_) => Error
    case ExitWith(_) => Exit
    case CameOnline => Online
  }

  /** One call `fn(e)` made by the fan-out. The `online` handlers are called
      as `fn()`, with no argument; for them the recorded event `CameOnline`
      stands for that empty argument list. */
  datatype Invocation<H> = Invocation(handler: H, event: WorkerEvent)

  /** `handlers.forEach(fn => fn(e))`: one call per handler, in list order. */
  function Invocations<H>(hs: seq<H>, e: WorkerEvent): (calls: seq<Invocation<H>>)
    ensures |calls| == |hs|
    ensures forall i :: 0 <= i < |hs| ==> calls[i] == Invocation(hs[i], e)
  {
    if hs == [] then [] else [Invocation(hs[0], e)] + Invocations(hs[1..], e)
  }

  /** The fan-out of one worker event. */
  function Deliver<H>(r: Registry<H>, e: WorkerEvent): (calls: seq<Invocation<H>>)
    requires Valid(r)
    ensures |calls| == |r[ChannelOf(e)]|
    ensures forall i :: 0 <= i < |calls| ==> calls[i] == Invocation(r[ChannelOf(e)][i], e)
  {
    Invocations(r[ChannelOf(e)], e)
  }

  /** A ready message reaches the ready handlers only, and any other posted
      payload (including a serialized report) the message handlers only. */
  lemma RoutingOfPostedPayloads<H>(r: Registry<H>, d: Inbound)
    requires Valid(r)
    ensures d.Posted? && d.msg.kind == WorkerMessages.Ready ==> Deliver(r, MessageFrom(d)) == Invocations(r[Ready], MessageFrom(d))
    ensures !(d.Posted? && d.msg.kind == WorkerMessages.Ready) ==> Deliver(r, MessageFrom(d)) == Invocations(r[Message], MessageFrom(d))
  {
  }

  /** A handler registered with `on` is called after every handler registered
      before it on the same channel; registering elsewhere changes nothing. */
  lemma DeliverAfterOn<H>(r: Registry<H>, n: EventName, h: H, e: WorkerEvent)
    requires Valid(r)
    ensures n == ChannelOf(e) ==> Deliver(On(r, n, h), e) == Deliver(r, e) + [Invocation(h, e)]
    ensures n != ChannelOf(e) ==> Deliver(On(r, n, h), e) == Deliver(r, e)
  {
  }

  /** Starting from the constructor's registry, handlers registered in order
      on the event's channel are invoked in exactly that order. */
  lemma DispatchInRegistrationOrder<H>(hs: seq<H>, e: WorkerEvent)
    ensures Deliver(OnAll(Init<H>(), ChannelOf(e), hs), e) == Invocations(hs, e)
  {
    OnAllAppends(Init<H>(), ChannelOf(e), hs);
  }

  /** The handlers `initWorkerEvent` itself registers, after any registered
      earlier: a report logger on `message`, an error logger on `error` and an
      exit logger on `exit`. */
  function AttachDefaults<H>(r: Registry<H>, logReport: H, logError: H, logExit: H): (r': Registry<H>)
    requires Valid(r)
    ensures Valid(r')
    ensures r'[Message] == r[Message] + [logReport]
    ensures r'[Error] == r[Error] + [logError]
    ensures r'[Exit] == r[Exit] + [logExit]
    ensures r'[Online] == r[Online] && r'[Ready] == r[Ready]
  {
    On(On(On(r, Message, logReport), Error, logError), Exit, logExit)
  }

  /** What the default message handler prints: the `message` field of a
      payload whose `type` is `Report`, and nothing for anything else. */
  function DefaultReportLog(e: WorkerEvent): Option<Value> {
    match e
    case MessageFrom(Posted(m)) => if m.kind == WorkerMessages.Report then Some(m.message) else None
    case _ => None
  }

  /** The worker's `report` posts a JSON string, which has no `type`, so the
      default logger never prints it; only a report posted as an object is. */
  lemma SerializedReportsAreNotLogged(json: string, m: WorkerMessages.Message)
    ensures DefaultReportLog(MessageFrom(Serialized(json))).None?
    ensures m.kind == WorkerMessages.Report ==> DefaultReportLog(MessageFrom(Posted(m))) == Some(m.message)
  {
  }

  /** `question(text)`: a `Question` message whose data is the text, or
      `null` when the text is empty. */
  function QuestionMessage(text: string): (m: WorkerMessages.Message)
    ensures m.kind == WorkerMessages.Question && m.message == Str("question")
    ensures text != "" ==> m.data == Str(text)
    ensures text == "" ==> m.data == Null
  {
    WorkerMessages.Build(WorkerMessages.Question, Str("question"), Str(text))
  }

  /** `refresh()`: a bare `Refresh` message. */
  function RefreshMessage(): (m: WorkerMessages.Message)
    ensures m == WorkerMessages.Message(WorkerMessages.Refresh, Str("none"), Null)
  {
    WorkerMessages.Build(WorkerMessages.Refresh)
  }

  /** `exit()`: a bare `Exit` message. */
  function ExitMessage(): (m: WorkerMessages.Message)
    ensures m == WorkerMessages.Message(WorkerMessages.Exit, Str("none"), Null)
  {
    WorkerMessages.Build(WorkerMessages.Exit)
  }
}

=== FILE: wrappers.dfy ===
/** The optional-value type used across the model. */
module Wrappers {

  datatype Option<+T> = None | Some(value: T)
}
